=== FILE: README.md ===
# Moments in Motion: the motion cores, modelled in Dafny

The repository holds two browser scripts that draw moving shapes over a
camera feed.

- `main.js` is the object-tracking overlay. A pool of fifteen `MovingRect`s
  sits over the canvas. Every 200 ms, `assignRectsToObjects` binds rect *i*
  to detected object *i*, and sends every other rect after a random point.
  On each animation frame, `animate` clamps the elapsed time to at most
  50 ms and calls `move(dt)` on every rect. `move` steps a rect towards its
  target by `min(dist, speed * dt)`. Within 10 units of the target it stays
  put instead, and a random target is then redrawn.
- `mini_telegram_app.js` is the bouncing-square overlay. Twenty-five
  `MovingSquare`s drift by a fixed velocity each frame. A velocity component
  flips sign when the square has crossed the matching canvas edge.

The project has four files:

- `tracker.dfy` (module `Tracker`) models `main.js`. Values and functions
  (`Rect`, `Step`, `Assign`, `Frame`, …) state what each operation does, and
  lemmas prove the properties. The classes `MovingRect` and `Overlay` hold the
  same state in fields and arrays. Their methods are proved equal to those
  functions.
- `squares.dfy` (module `Squares`) models `mini_telegram_app.js` the same way,
  with `Square`, `Bounce`, `MovingSquare` and `SquarePool`.
- `uniform.dfy` (module `Uniform`) holds the range of `Math.random()` and the
  scaled draw `Math.random() * extent`, which both scripts use.
- `wrappers.dfy` (module `Wrappers`) holds `Option`.

The model's inputs:

- Random draws are passed in as parameters. Each is a real number, and the
  lemmas assume it lies in [0, 1).
- `Math.sqrt` is a parameter `sqrt: real -> real`. Lemmas that need its
  meaning require `IsSqrt(sqrt)`: the exact non-negative root.
- Canvas and video sizes are inputs (`Screen`, `Canvas`).
- `detectedObjects` is an input sequence. Each detection has an optional id
  and a box.

## Model

| member | source | states |
|---|---|---|
| Uniform.Scaled | main.js:71-72 | a draw in [0, 1) times a positive extent lies in [0, extent) |
| Tracker.SpeedFrom | main.js:84 | `1000 + r * 500` lies in [1000, 1500) for a draw r in [0, 1) |
| Tracker.ClampDt | main.js:169 | the frame step is never above 0.05 s; it is the elapsed time when that is at most 0.05 s, otherwise 0.05; it is non-negative when time runs forward |
| Tracker.StallIsClamped | main.js:169 | a 5000 ms gap between frames still integrates only 0.05 s |
| Tracker.KeyOf | main.js:83 | the key of a detection is its id when that is present and non-empty, and its box otherwise |
| Tracker.KeyIdentity | main.js:83 | two id-less detections share a key exactly when their boxes are equal; an id keeps its key whatever the box; in the model an id key never equals a box key (see Left out) |
| Tracker.Present | main.js:97 | a key is present only if some detection carries it, and any detection carrying it makes it present; a null id is never present |
| Tracker.CenterOf | main.js:138-143 | `center()` is equidistant from both edges of the rect on each axis, and strictly inside a rect of positive size |
| Tracker.TargetObject | main.js:75-85 | after `setTargetToObject`, a rect resting at its target has its centre exactly at the bbox centre scaled from video to canvas pixels; it is bound to the object's key; position and size are unchanged; the speed is in [1000, 1500) |
| Tracker.ObjectTargetMayLeaveCanvas | main.js:76-81 | an object target can lie off the canvas: a 20 × 20 box in the corner of a 640 × 480 video on an 800 × 600 canvas puts a 100-wide rect's target at x = −37.5 |
| Tracker.TargetRandom | main.js:86-94 | after `setTargetToRandom`, the target lies in [0, canvas.width − width) × [0, canvas.height − height); the rect is unbound (`'random'`, null id); position and size are unchanged; the speed is in [1000, 1500) |
| Tracker.Churn | main.js:96-99 | a rect chasing an object that no detection carries is retargeted by `setTargetToRandom` (`TargetRandom`), so it becomes `'random'` with a null id; a random rect, or one whose object is still present, is unchanged; position and size never change; well-formedness is kept |
| Tracker.Step | main.js:95-114 | `move(dt)` keeps the size, keeps the binding invariant and well-formedness, and a rect still chasing an object after it chases a present one with the same id; it never divides by zero, since `Advance`, which divides by `dist`, requires `dist >= 10` |
| Tracker.StepDropsVanishedObject | main.js:96-99 | a rect whose object vanished chases a random point after `move` |
| Tracker.StepKeepsPresentObject | main.js:96-113 | a rect whose object is still detected keeps its `'object'` type, its id and its target through `move`, whether it arrives or advances |
| Tracker.StepArrives | main.js:103-110 | within 10 units of the target `move` leaves x and y unchanged, keeps an object target as is and replaces a random one with a fresh random target |
| Tracker.Arrive | main.js:103-109 | within 10 units the corner and size stay; an object target is kept as is; a random target is replaced by another random one |
| Tracker.Advance | main.js:111-113 | from `dist >= 10`, only the corner moves: target, binding, size and speed are unchanged |
| Tracker.StepAdvances | main.js:103-113 | from 10 units or more away `move` is an advance by `min(dist, speed * dt)` towards the target |
| Tracker.AdvanceStepBounds | main.js:111 | the step `min(dist, speed * dt)` lies in [0, dist] and is at most `speed * dt`; target, binding, size and speed are unchanged |
| Tracker.AdvanceOnSegment | main.js:111-113 | the new position is on the segment from the old position to the target, a fraction `step / dist` of the way |
| Tracker.AdvanceLength | main.js:111-113 | the rect moves by exactly `step` |
| Tracker.AdvanceRemaining | main.js:100-113 | `dist − step` (non-negative) remains to the target: no overshoot |
| Tracker.AdvanceNoOvershoot | main.js:100-113 | the four facts above together: bounded step, on the segment, length `step`, `dist − step` left |
| Tracker.AdvanceDisplacement | main.js:111-113 | at a speed below 1500 an advance covers at most `1500 * dt` |
| Tracker.StepDisplacement | main.js:95-114 | a well-formed rect moves at most `1500 * dt` in one `move` |
| Tracker.SpawnAsWritten | main.js:61-74 | as written, every `new MovingRect()` throws a TypeError at `this.setNewTarget()`, which the class does not declare |
| Tracker.Spawn | main.js:61-74 | a new rect rests on its own corner as a random, unbound target; its size lies in [40, 120), its speed in [1000, 1500), and its corner in [0, canvas.width − width) × [0, canvas.height − height) |
| Tracker.AssignOne | main.js:155-161 | one pass of the loop: rect i below the number of detections is bound to detection i's key; any other rect is `'random'`, and left untouched if it already was; corner and size never change; the binding invariant is kept |
| Tracker.Assign | main.js:150-163 | rect i below the number of detections is bound to detection i's key with its centre target at the scaled bbox centre; every other rect is `'random'`, and one that already was is untouched; positions and sizes are unchanged; the binding invariant is kept |
| Tracker.AssignKeepsWellFormed | main.js:150-163 | assignment keeps every rect's binding invariant, size range and speed range |
| Tracker.AssignBindsOnlyPresent | main.js:154-158 | for any pool, just after an assignment every bound rect is bound to a present detection |
| Tracker.AssignOneToOne | main.js:154-158 | for any pool, with distinct detection keys no two rects are bound to the same object |
| Tracker.AssignIdempotent | main.js:154-161 | repeating the assignment with unchanged detections leaves bindings and targets as they were; only the redrawn speeds of bound rects differ |
| Tracker.Start | main.js:147 | page load gives fifteen well-formed rects, no detections, and the clock at `now` |
| Tracker.Detect | main.js:54 | a finished detection replaces `detectedObjects` and changes nothing else |
| Tracker.Reassign | main.js:150-164 | the assignment timer changes only the rects |
| Tracker.Frame | main.js:168-194 | a frame sets `lastTime` to `now`, keeps the pool size, the screen and the detections, and leaves every bound rect bound to a present detection |
| Tracker.FrameBoundedStep | main.js:168-194 | with time running forward, no rect moves more than 75 units in a frame |
| Tracker.ApplyKeepsWorldOk | main.js:150-197 | a detection, an assignment or a frame keeps the page invariant: fifteen rects, each well formed |
| Tracker.Run | main.js:150-197 | any interleaving of detections, assignments and frames keeps the page invariant |
| Tracker.MovingRect.constructor | main.js:61-67 | the constructor's fields are `Spawn`'s rect |
| Tracker.MovingRect.Randomize | main.js:68-72 | `randomize` draws the size and then a position at which the rect fits, and touches nothing else |
| Tracker.MovingRect.SetTargetToObject | main.js:75-85 | the new fields are `TargetObject` of the old ones |
| Tracker.MovingRect.SetTargetToRandom | main.js:86-94 | the new fields are `TargetRandom` of the old ones |
| Tracker.MovingRect.Move | main.js:95-114 | the new fields are `Step` of the old ones |
| Tracker.MovingRect.StepToward | main.js:111-113 | the last three lines of `move` update x and y to `Advance` of the old fields |
| Tracker.MovingRect.Center | main.js:138-143 | `center()` is `CenterOf` the fields |
| Tracker.Overlay.constructor | main.js:147 | the `rects` array holds fifteen distinct fresh rects, and the page is `Start` |
| Tracker.Overlay.ReceivePredictions | main.js:54 | the page after a detection is `Detect` of the page before |
| Tracker.Overlay.AssignRectsToObjects | main.js:150-163 | the loop over `rects` leaves the page equal to `Reassign` of the page before |
| Tracker.Overlay.Animate | main.js:168-194 | the clamp, `lastTime = now` and the loop of `move` leave the page equal to `Frame` of the page before |
| Squares.Channel | mini_telegram_app.js:31 | `Math.floor(Math.random() * 255)` lies in [0, 254] |
| Squares.Velocity | mini_telegram_app.js:29-30 | `(Math.random() − 0.5) * 12` lies in [−6, 6) |
| Squares.Spawn | mini_telegram_app.js:25-32 | a new square has size in [20, 80), x in [0, canvas.width − size), y in [0, canvas.height − size), vx and vy in [−6, 6), and colour channels in [0, 254] |
| Squares.Reflect | mini_telegram_app.js:34-37 | one axis: the position advances by the velocity; the velocity is negated when the new span is outside the canvas and unchanged otherwise; its magnitude is kept |
| Squares.Bounce | mini_telegram_app.js:33-39 | `move()`: x' = x + vx and y' = y + vy; vx is negated exactly when the new x span is outside the width, otherwise unchanged, and likewise vy with the height; the magnitudes of vx and vy are kept; size and colour are unchanged |
| Squares.AxesIndependent | mini_telegram_app.js:33-39 | x and vx after `move` depend only on x, vx, size and the width; y and vy only on y, vy, size and the height |
| Squares.BounceReturns | mini_telegram_app.js:33-39 | a square inside the canvas whose step crosses a side edge is back at its x two frames later, with vx reversed |
| Squares.SpawnIsNear | mini_telegram_app.js:26-28 | a new square on a canvas of at least 80 × 80 starts inside it |
| Squares.BounceKeepsNear | mini_telegram_app.js:33-39 | on a canvas of fixed size, a square that is inside on each axis now or after its next step stays so after `move` |
| Squares.Run | mini_telegram_app.js:51-58 | any number of frames keeps size, colour and the magnitudes of vx and vy |
| Squares.RunKeepsNear | mini_telegram_app.js:51-58 | on a canvas whose size does not change, any number of frames keeps a square that starts inside now or after its next step so |
| Squares.ResizeStrandsSquare | mini_telegram_app.js:7-11 | after the canvas shrinks from 800 to 500 wide, a square at x = 600 moving right at 5 is no longer near the canvas and returns to the same state every two frames, outside it |
| Squares.MovingSquare.constructor | mini_telegram_app.js:25-32 | the constructor's fields are `Spawn`'s square |
| Squares.MovingSquare.Move | mini_telegram_app.js:33-39 | the new fields are `Bounce` of the old ones |
| Squares.SquarePool.constructor | mini_telegram_app.js:48 | the `squares` array holds twenty-five distinct fresh squares, square i being `Spawn` of draw i |
| Squares.SquarePool.Animate | mini_telegram_app.js:51-56 | one frame leaves square i equal to `Bounce` of square i before |

## Left out

- Camera access, `getUserMedia` and the failure `alert` are browser I/O.
- Loading the COCO-SSD model and the detection polling with `setTimeout` are
  asynchronous calls into an ML library. A detection is modelled as replacing
  `detectedObjects` with an input sequence (`Detect`, `ReceivePredictions`).
- `setInterval`, `requestAnimationFrame` and `performance.now()` are event-loop
  timing. The model applies assignments and frames explicitly and takes `now`
  as a parameter.
- All drawing is rendering and DOM: the `draw` methods, the pulsing lines
  with `Math.sin`, `Math.round` and `clearRect`.
- `resizeCanvas` is left out. The canvas size is a parameter of every
  operation that reads it. `Overlay.screen` is constant, so a resize between
  frames is not modelled for the tracking overlay.
- `Math.random` is left out. Its draws are parameters, and lemmas assume
  each lies in [0, 1).
- IEEE double rounding is left out. Positions are real numbers, and
  `Math.sqrt` is the exact root supplied as a parameter.
- The `usedObjIds` set in `assignRectsToObjects` is filled but never read, so
  it is not modelled.
- Tracker.KeyOf: the key is `IdKey(id)` or `BoxKey(bbox)`. The script compares
  strings, so an id equal to a joined bbox such as `"1-2-3-4"` would collide
  with that box's key. The model does not capture that collision.
- Tracker.KeyIdentity: its third clause, that an id key never equals a box
  key, holds of the model's `Key` only. In the script the string id
  `"1-2-3-4"` equals the key of the box [1, 2, 3, 4].
- Tracker.VideoReady: targeting an object divides by the video size. The
  model requires that size to be positive wherever there are detections,
  because detections are produced only after the video has loaded.
- Tracker.ClampDt: the code caps `dt` only from above, so non-negativity is
  stated only for `now >= lastTime`. That can fail even with a monotonic
  clock: the first `requestAnimationFrame` timestamp can be earlier than the
  `performance.now()` read at page load (main.js:167). The first frame then
  has a negative `dt`, and `Tracker.FrameBoundedStep`, which requires
  `lastTime <= now`, says nothing about that frame.
- No boundary invariant is claimed for the rects: neither script clamps
  positions to the canvas. Random targets lie inside the canvas when the
  rect fits (`Tracker.TargetRandom`). Object targets centre the rect on the
  object and may leave part of it off the canvas
  (`Tracker.ObjectTargetMayLeaveCanvas`). A square that starts inside a
  canvas of fixed size stays within one step of it (`Squares.SpawnIsNear`
  for canvases of at least 80 × 80, `Squares.RunKeepsNear`). A resize that
  leaves a square wholly past the new edge makes it flip its velocity every
  frame and stay outside (`Squares.ResizeStrandsSquare`).
- The `MovingRect` constructor and the rest of the model use the corrected
  `randomize` (see Findings).

## Findings

| source | as written | input that shows it | evidently intended | confidence | as-written member | corrected member |
|---|---|---|---|---|---|---|
| main.js:73 | `randomize()` ends with `this.setNewTarget()`, but `MovingRect` declares no such method, so the call throws a TypeError | any `new MovingRect()`, e.g. the first element of the pool at main.js:147 | no call: the constructor sets `target`, `speed`, `targetType` and `targetObjId` right after `randomize` returns | high; not executed | Tracker.SpawnAsWritten | Tracker.Spawn |

=== FILE: squares.dfy ===
/**
 * The bouncing-square overlay of mini_telegram_app.js: twenty-five squares
 * drift over the canvas by a fixed velocity per animation frame, and a
 * velocity component flips sign whenever the square has crossed the
 * matching canvas edge.
 *
 * Square and the functions over it say what the script does; the classes
 * MovingSquare and SquarePool hold the same state in fields and are proved
 * against those functions.
 */
module Squares {
  import opened Uniform

  // ------------------------------------------------------------------ values

  /** `rgba(red,green,blue,0.7)`: the alpha is always 0.7. */
  datatype Color = Rgba(red: int, green: int, blue: int)

  /** The fields of one MovingSquare. */
  datatype Square = Square(size: real, x: real, y: real, vx: real, vy: real, color: Color)

  /** `canvas.width` and `canvas.height`, read at the moment of use. */
  datatype Canvas = Canvas(width: real, height: real)

  /** The eight `Math.random()` draws of the constructor, in the order it makes them. */
  datatype SquareDraws = SquareDraws(size: real, x: real, y: real, vx: real, vy: real,
                                     red: real, green: real, blue: real)

  predicate SquareDrawsInUnit(d: SquareDraws)
  {
    && InUnit(d.size) && InUnit(d.x) && InUnit(d.y) && InUnit(d.vx) && InUnit(d.vy)
    && InUnit(d.red) && InUnit(d.green) && InUnit(d.blue)
  }

  function Abs(v: real): real { if v < 0.0 then -v else v }

  // ---------------------------------------------------------------- creation

  /** `Math.floor(Math.random() * 255)`: a colour channel. */
  function Channel(r: real): (c: int)
    ensures InUnit(r) ==> 0 <= c <= 254
  {
    (r * 255.0).Floor
  }

  /** `(Math.random() - 0.5) * 12`: a velocity component. */
  function Velocity(r: real): (v: real)
    ensures InUnit(r) ==> -6.0 <= v < 6.0
  {
    (r - 0.5) * 12.0
  }

  /** `new MovingSquare()` on a canvas of the given size. */
  function Spawn(cv: Canvas, d: SquareDraws): (s: Square)
    ensures SquareDrawsInUnit(d) ==> 20.0 <= s.size < 80.0
    ensures SquareDrawsInUnit(d) && s.size < cv.width ==> 0.0 <= s.x < cv.width - s.size
    ensures SquareDrawsInUnit(d) && s.size < cv.height ==> 0.0 <= s.y < cv.height - s.size
    ensures SquareDrawsInUnit(d) ==> -6.0 <= s.vx < 6.0 && -6.0 <= s.vy < 6.0
    ensures SquareDrawsInUnit(d) ==>
              && 0 <= s.color.red <= 254 && 0 <= s.color.green <= 254 && 0 <= s.color.blue <= 254
  {
    var size := d.size * 60.0 + 20.0;
    Square(size, Scaled(d.x, cv.width - size), Scaled(d.y, cv.height - size),
           Velocity(d.vx), Velocity(d.vy),
           Rgba(Channel(d.red), Channel(d.green), Channel(d.blue)))
  }

  // ------------------------------------------------------------------- move

  /** The edge test of `move`: the span `[p, p + size]` leaves `[0, limit]`. */
  predicate Outside(p: real, size: real, limit: real) { p < 0.0 || p + size > limit }

  /** One axis of `move`: step by `v`, then flip `v` if the new span is outside. */
  function Reflect(p: real, v: real, size: real, limit: real): (r: (real, real))
    ensures r.0 == p + v
    ensures Outside(r.0, size, limit) ==> r.1 == -v
    ensures !Outside(r.0, size, limit) ==> r.1 == v
    ensures Abs(r.1) == Abs(v)
  {
    var p' := p + v;
    (p', if Outside(p', size, limit) then v * -1.0 else v)
  }

  /** `move()`: both axes, each by Reflect, against the current canvas size. */
  function Bounce(s: Square, cv: Canvas): (t: Square)
    ensures t.x == s.x + s.vx && t.y == s.y + s.vy
    ensures Outside(t.x, s.size, cv.width) ==> t.vx == -s.vx
    ensures !Outside(t.x, s.size, cv.width) ==> t.vx == s.vx
    ensures Outside(t.y, s.size, cv.height) ==> t.vy == -s.vy
    ensures !Outside(t.y, s.size, cv.height) ==> t.vy == s.vy
    ensures Abs(t.vx) == Abs(s.vx) && Abs(t.vy) == Abs(s.vy)
    ensures t.size == s.size && t.color == s.color
  {
    var (x, vx) := Reflect(s.x, s.vx, s.size, cv.width);
    var (y, vy) := Reflect(s.y, s.vy, s.size, cv.height);
    s.(x := x, y := y, vx := vx, vy := vy)
  }

  /**
   * The axes are independent: what `move` does to x and vx depends only on
   * x, vx, size and the canvas width, and what it does to y and vy only on
   * y, vy, size and the canvas height.
   */
  lemma AxesIndependent(s: Square, s': Square, cv: Canvas, cv': Canvas)
    requires s.size == s'.size
    ensures s.x == s'.x && s.vx == s'.vx && cv.width == cv'.width ==>
              Bounce(s, cv).x == Bounce(s', cv').x && Bounce(s, cv).vx == Bounce(s', cv').vx
    ensures s.y == s'.y && s.vy == s'.vy && cv.height == cv'.height ==>
              Bounce(s, cv).y == Bounce(s', cv').y && Bounce(s, cv).vy == Bounce(s', cv').vy
  {
  }

  /** The span `[p, p + size]` lies within `[0, limit]`. */
  predicate Inside(p: real, size: real, limit: real) { !Outside(p, size, limit) }

  /**
   * A bounce undoes itself: a square inside the canvas whose next step
   * crosses the right or left edge is, two frames later, back where it
   * started with its x velocity reversed.
   */
  lemma BounceReturns(s: Square, cv: Canvas)
    requires Inside(s.x, s.size, cv.width) && Outside(s.x + s.vx, s.size, cv.width)
    ensures var t := Bounce(Bounce(s, cv), cv);
            t.x == s.x && t.vx == -s.vx
  {
    var u := Bounce(s, cv);
    assert u.vx == -s.vx;
    assert u.x + u.vx == s.x;
  }

  /**
   * On a canvas of fixed width a square never strays further than one step:
   * it is inside now or will be after its next step.
   */
  predicate NearX(s: Square, cv: Canvas)
  {
    Inside(s.x, s.size, cv.width) || Inside(s.x + s.vx, s.size, cv.width)
  }

  predicate NearY(s: Square, cv: Canvas)
  {
    Inside(s.y, s.size, cv.height) || Inside(s.y + s.vy, s.size, cv.height)
  }

  predicate Near(s: Square, cv: Canvas) { NearX(s, cv) && NearY(s, cv) }

  /** A freshly made square that fits the canvas starts inside it. */
  lemma SpawnIsNear(cv: Canvas, d: SquareDraws)
    requires SquareDrawsInUnit(d) && 80.0 <= cv.width && 80.0 <= cv.height
    ensures Near(Spawn(cv, d), cv)
  {
    var s := Spawn(cv, d);
    assert Inside(s.x, s.size, cv.width);
    assert Inside(s.y, s.size, cv.height);
  }

  /** `move` keeps a square near a canvas whose size does not change. */
  lemma BounceKeepsNear(s: Square, cv: Canvas)
    requires Near(s, cv)
    ensures Near(Bounce(s, cv), cv)
  {
    var t := Bounce(s, cv);
    if Outside(t.x, s.size, cv.width) {
      assert t.x + t.vx == s.x;
    }
    if Outside(t.y, s.size, cv.height) {
      assert t.y + t.vy == s.y;
    }
  }

  /** `n` frames of `move` on a canvas of fixed size. */
  function Run(s: Square, cv: Canvas, n: nat): (t: Square)
    ensures t.size == s.size && t.color == s.color
    ensures Abs(t.vx) == Abs(s.vx) && Abs(t.vy) == Abs(s.vy)
    decreases n
  {
    if n == 0 then s else Run(Bounce(s, cv), cv, n - 1)
  }

  /** However many frames pass, a square that starts near the canvas stays near it. */
  lemma {:induction false} RunKeepsNear(s: Square, cv: Canvas, n: nat)
    requires Near(s, cv)
    ensures Near(Run(s, cv, n), cv)
    decreases n
  {
    if n > 0 {
      BounceKeepsNear(s, cv);
      RunKeepsNear(Bounce(s, cv), cv, n - 1);
    }
  }

  /**
   * A resize can strand a square: a square near an 800-wide canvas lies
   * wholly past the right edge once the canvas shrinks to 500, and from then
   * on flips vx every frame and bounces in place outside the canvas.
   */
  lemma ResizeStrandsSquare()
    ensures var s := Square(20.0, 600.0, 10.0, 5.0, 0.0, Rgba(0, 0, 0));
            && Near(s, Canvas(800.0, 400.0))
            && !Near(s, Canvas(500.0, 400.0))
            && Run(s, Canvas(500.0, 400.0), 2) == s
  {
  }

  // ----------------------------------------------------------------- objects

  /** `class MovingSquare`. */
  class MovingSquare {
    var size: real
    var x: real
    var y: real
    var vx: real
    var vy: real
    var color: Color

    function State(): Square
      reads this
    {
      Square(size, x, y, vx, vy, color)
    }

    /** The constructor, with the canvas size at that moment. */
    constructor (cv: Canvas, d: SquareDraws)
      ensures State() == Spawn(cv, d)
    {
      var side := d.size * 60.0 + 20.0;
      size := side;
      x := Scaled(d.x, cv.width - side);
      y := Scaled(d.y, cv.height - side);
      vx := Velocity(d.vx);
      vy := Velocity(d.vy);
      color := Rgba(Channel(d.red), Channel(d.green), Channel(d.blue));
    }

    /** `move()`, with the canvas size at that moment. */
    method Move(cv: Canvas)
      modifies this
      ensures State() == Bounce(old(State()), cv)
    {
      x := x + vx;
      y := y + vy;
      if x < 0.0 || x + size > cv.width {
        vx := vx * -1.0;
      }
      if y < 0.0 || y + size > cv.height {
        vy := vy * -1.0;
      }
    }
  }

  const PoolSize := 25

  /** The `squares` array and the `animate` loop over it. */
  class SquarePool {
    const squares: array<MovingSquare>

    ghost predicate Valid()
      reads this, squares
    {
      && squares.Length == PoolSize
      && (forall i, j :: 0 <= i < j < squares.Length ==> squares[i] != squares[j])
    }

    ghost function Squares(): set<MovingSquare>
      reads this, squares
    {
      set i | 0 <= i < squares.Length :: squares[i]
    }

    ghost function Model(): seq<Square>
      reads this, squares, Squares()
    {
      seq(squares.Length, i reads squares, set j | 0 <= j < squares.Length :: squares[j]
                            requires 0 <= i < squares.Length => squares[i].State())
    }

    /** `Array.from({length: 25}, () => new MovingSquare())`. */
    constructor (cv: Canvas, draws: seq<SquareDraws>)
      requires |draws| == PoolSize
      ensures Valid() && fresh(squares) && fresh(Squares())
      ensures Model() == seq(PoolSize, i requires 0 <= i < PoolSize => Spawn(cv, draws[i]))
    {
      var made: seq<MovingSquare> := [];
      while |made| < PoolSize
        invariant |made| <= PoolSize
        invariant forall i, j :: 0 <= i < j < |made| ==> made[i] != made[j]
        invariant forall i :: 0 <= i < |made| ==> fresh(made[i]) && made[i].State() == Spawn(cv, draws[i])
      {
        var sq := new MovingSquare(cv, draws[|made|]);
        made := made + [sq];
      }
      squares := new MovingSquare[PoolSize](i requires 0 <= i < PoolSize => made[i]);
      new;
      assert forall i :: 0 <= i < PoolSize ==> squares[i] == made[i];
    }

    /** One call of `animate()`: `move()` on every square, in order. */
    method Animate(cv: Canvas)
      requires Valid()
      modifies Squares()
      ensures Valid()
      ensures Model() == seq(PoolSize, i requires 0 <= i < PoolSize => Bounce(old(Model())[i], cv))
    {
      ghost var before := Model();
      for i := 0 to squares.Length
        invariant forall k :: 0 <= k < i ==> squares[k].State() == Bounce(before[k], cv)
        invariant forall k :: i <= k < squares.Length ==> squares[k].State() == before[k]
      {
        squares[i].Move(cv);
      }
    }
  }
}

=== FILE: tracker.dfy ===
/**
 * The object-tracking overlay of main.js: a pool of fifteen rectangles, each
 * chasing either a detected object (rect i is bound to detection i) or a
 * random point on the canvas, stepping at most `speed * dt` per animation
 * frame towards its target.
 *
 * The values (Rect, World) and the functions over them say what each
 * operation of the script does; the classes MovingRect and Overlay hold the
 * same state in fields and are proved against those functions.
 */
module Tracker {
  import opened Wrappers
  import opened Uniform

  // ------------------------------------------------------------------ values

  datatype Point = Point(x: real, y: real)

  /** A prediction's `bbox`: left, top, width and height in video pixels. */
  datatype BBox = BBox(left: real, top: real, width: real, height: real)

  /** One element of `detectedObjects`: an optional `id` and a `bbox`. */
  datatype Detection = Detection(id: Option<string>, bbox: BBox)

  /** The identity key `obj.id || obj.bbox.join('-')`. */
  datatype Key = IdKey(id: string) | BoxKey(box: BBox)

  datatype TargetType = Random | Object

  /** The canvas size and the camera's intrinsic video size. */
  datatype Screen = Screen(width: real, height: real, videoWidth: real, videoHeight: real)

  /** The `Math.random()` draws one retargeting consumes: target x, target y, speed. */
  datatype Draws = Draws(x: real, y: real, speed: real)

  /** The draws of one `move`: for a retarget on churn and for one on arrival. */
  datatype MoveDraws = MoveDraws(churn: Draws, arrival: Draws)

  /** The draws of `new MovingRect()`: width, height, x, y, then speed. */
  datatype SpawnDraws = SpawnDraws(width: real, height: real, x: real, y: real, speed: real)

  /** The fields of one MovingRect. */
  datatype Rect = Rect(x: real, y: real, width: real, height: real,
                       target: Point, speed: real,
                       targetType: TargetType, targetObjId: Option<Key>)

  /** Every draw of a retarget is a value `Math.random()` can return. */
  predicate DrawsInUnit(d: Draws) { InUnit(d.x) && InUnit(d.y) && InUnit(d.speed) }

  predicate MoveDrawsInUnit(m: MoveDraws) { DrawsInUnit(m.churn) && DrawsInUnit(m.arrival) }

  predicate SpawnDrawsInUnit(d: SpawnDraws)
  {
    InUnit(d.width) && InUnit(d.height) && InUnit(d.x) && InUnit(d.y) && InUnit(d.speed)
  }

  /** The binding invariant: a rect chases a random point exactly when it has no object id. */
  predicate Bound(r: Rect) { r.targetType == Random <==> r.targetObjId == None }

  /** What holds of every rect: the binding invariant and the ranges of its random size and speed. */
  predicate WellFormed(r: Rect)
  {
    Bound(r) && 40.0 <= r.width < 120.0 && 40.0 <= r.height < 120.0 && 1000.0 <= r.speed < 1500.0
  }

  /** Detections exist only once the video has loaded, so its size is positive. */
  predicate VideoReady(sc: Screen) { sc.videoWidth > 0.0 && sc.videoHeight > 0.0 }

  function Min(a: real, b: real): (m: real)
    ensures m <= a && m <= b && (m == a || m == b)
  {
    if a <= b then a else b
  }

  function SqLen(dx: real, dy: real): real { dx * dx + dy * dy }

  /** The squared distance from a rect's corner to its target. */
  function SqDist(r: Rect): real { SqLen(r.target.x - r.x, r.target.y - r.y) }

  /** `sqrt` is the exact, non-negative square root (what `Math.sqrt` computes on reals). */
  ghost predicate IsSqrt(sqrt: real -> real)
  {
    forall v: real :: v >= 0.0 ==> sqrt(v) >= 0.0 && sqrt(v) * sqrt(v) == v
  }

  /** `1000 + Math.random() * 500`, the speed every (re)targeting draws. */
  function SpeedFrom(r: real): (s: real)
    ensures InUnit(r) ==> 1000.0 <= s < 1500.0
  {
    1000.0 + r * 500.0
  }

  // ------------------------------------------------------------- frame clock

  /** The step of one frame in seconds: `Math.min((now - lastTime) / 1000, 0.05)`. */
  function ClampDt(now: real, lastTime: real): (dt: real)
    ensures dt <= 0.05
    ensures dt == 0.05 || dt == (now - lastTime) / 1000.0
    ensures (now - lastTime) / 1000.0 <= 0.05 ==> dt == (now - lastTime) / 1000.0
    ensures lastTime <= now ==> 0.0 <= dt
  {
    Min((now - lastTime) / 1000.0, 0.05)
  }

  /** A stall of five seconds still integrates only 50 ms. */
  lemma StallIsClamped(now: real, lastTime: real)
    requires now - lastTime == 5000.0
    ensures ClampDt(now, lastTime) == 0.05
  {
  }

  // ------------------------------------------------------------ target keys

  /** JavaScript truthiness of an optional id string: present and not empty. */
  predicate Truthy(id: Option<string>) { id.Some? && id.value != "" }

  /** `obj.id || obj.bbox.join('-')` */
  function KeyOf(obj: Detection): (k: Key)
    ensures Truthy(obj.id) ==> k == IdKey(obj.id.value)
    ensures !Truthy(obj.id) ==> k == BoxKey(obj.bbox)
  {
    if Truthy(obj.id) then IdKey(obj.id.value) else BoxKey(obj.bbox)
  }

  /**
   * Identity by geometry: two detections without an id share a key exactly
   * when their boxes are equal, and a detection with an id keeps its key
   * however its box moves.
   */
  lemma KeyIdentity(a: Detection, b: Detection)
    ensures !Truthy(a.id) && !Truthy(b.id) ==> (KeyOf(a) == KeyOf(b) <==> a.bbox == b.bbox)
    ensures Truthy(a.id) && a.id == b.id ==> KeyOf(a) == KeyOf(b)
    ensures Truthy(a.id) != Truthy(b.id) ==> KeyOf(a) != KeyOf(b)
  {
  }

  /** `detectedObjects.some(obj => key(obj) === id)` */
  predicate Present(det: seq<Detection>, id: Option<Key>)
    ensures Present(det, id) ==> id.Some?
    ensures forall i :: 0 <= i < |det| && Some(KeyOf(det[i])) == id ==> Present(det, id)
    ensures Present(det, id) ==> |det| > 0
  {
    exists i :: 0 <= i < |det| && Some(KeyOf(det[i])) == id
  }

  // ------------------------------------------------------------- one rect

  /** `center()` */
  function CenterOf(r: Rect): (c: Point)
    ensures c.x - r.x == r.x + r.width - c.x && c.y - r.y == r.y + r.height - c.y
    ensures r.width > 0.0 ==> r.x < c.x < r.x + r.width
    ensures r.height > 0.0 ==> r.y < c.y < r.y + r.height
  {
    Point(r.x + r.width / 2.0, r.y + r.height / 2.0)
  }

  /** The rect as it stands once it has reached its target. */
  function AtTarget(r: Rect): Rect { r.(x := r.target.x, y := r.target.y) }

  /** The centre of a bounding box, scaled from video to canvas pixels. */
  function ScaledBoxCenter(b: BBox, sc: Screen): Point
    requires VideoReady(sc)
  {
    Point((b.left + b.width / 2.0) * (sc.width / sc.videoWidth),
          (b.top + b.height / 2.0) * (sc.height / sc.videoHeight))
  }

  /** `setTargetToObject(obj)`, with `rs` the speed draw. */
  function TargetObject(r: Rect, sc: Screen, obj: Detection, rs: real): (t: Rect)
    requires VideoReady(sc)
    ensures CenterOf(AtTarget(t)) == ScaledBoxCenter(obj.bbox, sc)
    ensures t.targetType == Object && t.targetObjId == Some(KeyOf(obj)) && Bound(t)
    ensures t.x == r.x && t.y == r.y && t.width == r.width && t.height == r.height
    ensures InUnit(rs) ==> 1000.0 <= t.speed < 1500.0
  {
    var scaleX, scaleY := sc.width / sc.videoWidth, sc.height / sc.videoHeight;
    r.(target := Point((obj.bbox.left + obj.bbox.width / 2.0) * scaleX - r.width / 2.0,
                       (obj.bbox.top + obj.bbox.height / 2.0) * scaleY - r.height / 2.0),
       targetType := Object,
       targetObjId := Some(KeyOf(obj)),
       speed := SpeedFrom(rs))
  }

  /**
   * An object target centres the rect on the object, so a rect chasing an
   * object near the canvas edge may aim partly off the canvas: a 20 x 20 box
   * in the video's corner puts a 100-wide rect's target at x = -37.5.
   */
  lemma ObjectTargetMayLeaveCanvas()
    ensures var sc := Screen(800.0, 600.0, 640.0, 480.0);
            var r := Rect(0.0, 0.0, 100.0, 100.0, Point(0.0, 0.0), 1000.0, Random, None);
            TargetObject(r, sc, Detection(None, BBox(0.0, 0.0, 20.0, 20.0)), 0.0).target.x == -37.5
  {
  }

  /** `setTargetToRandom()`: a random point at which the whole rect is on the canvas. */
  function TargetRandom(r: Rect, sc: Screen, d: Draws): (t: Rect)
    ensures t.targetType == Random && t.targetObjId == None && Bound(t)
    ensures t.x == r.x && t.y == r.y && t.width == r.width && t.height == r.height
    ensures InUnit(d.x) && r.width < sc.width ==> 0.0 <= t.target.x < sc.width - r.width
    ensures InUnit(d.y) && r.height < sc.height ==> 0.0 <= t.target.y < sc.height - r.height
    ensures InUnit(d.speed) ==> 1000.0 <= t.speed < 1500.0
  {
    r.(target := Point(Scaled(d.x, sc.width - r.width), Scaled(d.y, sc.height - r.height)),
       targetType := Random,
       targetObjId := None,
       speed := SpeedFrom(d.speed))
  }

  /** The first statement of `move`: a rect whose object has vanished retargets at random. */
  function Churn(r: Rect, sc: Screen, det: seq<Detection>, d: Draws): (c: Rect)
    ensures c.x == r.x && c.y == r.y && c.width == r.width && c.height == r.height
    ensures c.targetType == Object ==> c == r && Present(det, r.targetObjId)
    ensures r.targetType == Object && !Present(det, r.targetObjId) ==> c.targetType == Random && c.targetObjId == None
    ensures WellFormed(r) && DrawsInUnit(d) ==> WellFormed(c)
    ensures r.targetType == Random || Present(det, r.targetObjId) ==> c == r
    ensures r.targetType == Object && !Present(det, r.targetObjId) ==> c == TargetRandom(r, sc, d)
  {
    if r.targetType == Object && !Present(det, r.targetObjId) then TargetRandom(r, sc, d) else r
  }

  /** The last lines of `move`: a step of `min(dist, speed * dt)` along the unit vector to the target. */
  function Advance(c: Rect, dist: real, dt: real): (s: Rect)
    requires dist >= 10.0
    ensures s == c.(x := s.x, y := s.y)
  {
    var dx, dy := c.target.x - c.x, c.target.y - c.y;
    var moveDist := Min(dist, c.speed * dt);
    c.(x := c.x + dx / dist * moveDist, y := c.y + dy / dist * moveDist)
  }

  /** The branch of `move` within 10 units of the target: a random target is redrawn. */
  function Arrive(c: Rect, sc: Screen, arrival: Draws): (s: Rect)
    ensures s.x == c.x && s.y == c.y && s.width == c.width && s.height == c.height
    ensures c.targetType == Object ==> s == c
    ensures c.targetType == Random ==> s.targetType == Random && s.targetObjId == None
  {
    if c.targetType == Random then TargetRandom(c, sc, arrival) else c
  }

  /**
   * `move(dt)`: drop a vanished object, then either stay put within 10 units
   * of the target (drawing a new random target if the current one is random)
   * or advance towards it.
   */
  function Step(r: Rect, sc: Screen, det: seq<Detection>, dt: real, sqrt: real -> real,
                churn: Draws, arrival: Draws): (s: Rect)
    ensures s.width == r.width && s.height == r.height
    ensures s.targetType == Object ==> s.targetObjId == r.targetObjId && Present(det, r.targetObjId)
    ensures Bound(r) ==> Bound(s)
    ensures WellFormed(r) && DrawsInUnit(churn) && DrawsInUnit(arrival) ==> WellFormed(s)
  {
    var c := Churn(r, sc, det, churn);
    var dist := sqrt(SqDist(c));
    if dist < 10.0 then Arrive(c, sc, arrival) else Advance(c, dist, dt)
  }

  /** A rect that has vanished from the detections chases a random point after its next step. */
  lemma StepDropsVanishedObject(r: Rect, sc: Screen, det: seq<Detection>, dt: real,
                                sqrt: real -> real, churn: Draws, arrival: Draws)
    requires r.targetType == Object && !Present(det, r.targetObjId)
    ensures Step(r, sc, det, dt, sqrt, churn, arrival).targetType == Random
    ensures Step(r, sc, det, dt, sqrt, churn, arrival).targetObjId == None
  {
  }

  /**
   * Staying on the object while it is there: a rect whose object is still
   * detected keeps its binding and its target through `move`, whether it
   * arrives or advances.
   */
  lemma StepKeepsPresentObject(r: Rect, sc: Screen, det: seq<Detection>, dt: real,
                               sqrt: real -> real, churn: Draws, arrival: Draws)
    requires r.targetType == Object && Present(det, r.targetObjId)
    ensures var s := Step(r, sc, det, dt, sqrt, churn, arrival);
            && s.targetType == Object && s.targetObjId == r.targetObjId && s.target == r.target
  {
  }

  /**
   * Within 10 units of its target a rect does not move; a random target is
   * replaced by a fresh one, an object target is kept.
   */
  lemma StepArrives(r: Rect, sc: Screen, det: seq<Detection>, dt: real,
                    sqrt: real -> real, churn: Draws, arrival: Draws)
    requires sqrt(SqDist(Churn(r, sc, det, churn))) < 10.0
    ensures var c := Churn(r, sc, det, churn);
            var s := Step(r, sc, det, dt, sqrt, churn, arrival);
            && s.x == r.x && s.y == r.y
            && (c.targetType == Object ==> s == c)
            && (c.targetType == Random ==> s == TargetRandom(c, sc, arrival))
  {
  }

  /** The length of `(dx, dy) / dist` is one when `dist` is the length of `(dx, dy)`. */
  lemma UnitVector(dx: real, dy: real, dist: real)
    requires dist > 0.0 && dist * dist == dx * dx + dy * dy
    ensures SqLen(dx / dist, dy / dist) == 1.0
  {
    var ux, uy := dx / dist, dy / dist;
    assert dx == ux * dist && dy == uy * dist;
    calc {
      (ux * ux + uy * uy) * (dist * dist);
      (ux * dist) * (ux * dist) + (uy * dist) * (uy * dist);
      dx * dx + dy * dy;
      1.0 * (dist * dist);
    }
  }

  lemma ScaledUnit(ux: real, uy: real, k: real)
    requires SqLen(ux, uy) == 1.0
    ensures SqLen(ux * k, uy * k) == k * k
  {
    assert SqLen(ux * k, uy * k) == SqLen(ux, uy) * (k * k);
  }

  /** An advance keeps the target and moves by `step = min(dist, speed * dt)`, with `0 <= step <= dist`. */
  lemma AdvanceStepBounds(c: Rect, d: real, dt: real)
    requires d >= 10.0 && 0.0 <= c.speed && 0.0 <= dt
    ensures var step := Min(d, c.speed * dt);
            var s := Advance(c, d, dt);
            && 0.0 <= step <= d && step <= c.speed * dt && 0.0 <= step / d <= 1.0
            && s.target == c.target && s.targetType == c.targetType && s.targetObjId == c.targetObjId
            && s.width == c.width && s.height == c.height && s.speed == c.speed
  {
    var step := Min(d, c.speed * dt);
    assert 0.0 <= c.speed * dt;
    assert step / d <= 1.0 by {
      assert step / d * d == step;
    }
  }

  /** An advance lands on the segment from the rect to its target, a fraction `step / dist` of the way. */
  lemma AdvanceOnSegment(c: Rect, d: real, dt: real)
    requires d >= 10.0
    ensures var step := Min(d, c.speed * dt);
            var s := Advance(c, d, dt);
            && s.x == c.x + step / d * (c.target.x - c.x)
            && s.y == c.y + step / d * (c.target.y - c.y)
  {
  }

  /** An advance covers exactly `step`. */
  lemma AdvanceLength(c: Rect, d: real, dt: real)
    requires d >= 10.0 && d * d == SqDist(c)
    ensures var step := Min(d, c.speed * dt);
            var s := Advance(c, d, dt);
            SqLen(s.x - c.x, s.y - c.y) == step * step
  {
    var dx, dy := c.target.x - c.x, c.target.y - c.y;
    var step := Min(d, c.speed * dt);
    UnitVector(dx, dy, d);
    ScaledUnit(dx / d, dy / d, step);
  }

  /** After an advance, `dist - step` remains to the target. */
  lemma AdvanceRemaining(c: Rect, d: real, dt: real)
    requires d >= 10.0 && d * d == SqDist(c)
    ensures var step := Min(d, c.speed * dt);
            var s := Advance(c, d, dt);
            SqDist(s) == (d - step) * (d - step)
  {
    var dx, dy := c.target.x - c.x, c.target.y - c.y;
    var step := Min(d, c.speed * dt);
    UnitVector(dx, dy, d);
    var ux, uy := dx / d, dy / d;
    ScaledUnit(ux, uy, d - step);
    assert dx - ux * step == ux * (d - step);
    assert dy - uy * step == uy * (d - step);
  }

  /** From 10 units or more away, `move` advances towards the target. */
  lemma StepAdvances(r: Rect, sc: Screen, det: seq<Detection>, dt: real,
                     sqrt: real -> real, churn: Draws, arrival: Draws)
    requires sqrt(SqDist(Churn(r, sc, det, churn))) >= 10.0
    ensures var c := Churn(r, sc, det, churn);
            Step(r, sc, det, dt, sqrt, churn, arrival) == Advance(c, sqrt(SqDist(c)), dt)
  {
  }

  /**
   * No overshoot: an advance from `dist >= 10` moves the rect along the
   * segment to its target by exactly `step = min(dist, speed * dt)`, with
   * `0 <= step <= dist`, and leaves `dist - step` to go.
   */
  lemma AdvanceNoOvershoot(c: Rect, d: real, dt: real)
    requires d >= 10.0 && d * d == SqDist(c) && 0.0 <= c.speed && 0.0 <= dt
    ensures var step := Min(d, c.speed * dt);
            var s := Advance(c, d, dt);
            && 0.0 <= step <= d && step <= c.speed * dt && 0.0 <= step / d <= 1.0
            && s.target == c.target && s.targetType == c.targetType && s.targetObjId == c.targetObjId
            && s.x == c.x + step / d * (c.target.x - c.x)
            && s.y == c.y + step / d * (c.target.y - c.y)
            && SqLen(s.x - c.x, s.y - c.y) == step * step
            && SqDist(s) == (d - step) * (d - step)
  {
    AdvanceStepBounds(c, d, dt);
    AdvanceOnSegment(c, d, dt);
    AdvanceLength(c, d, dt);
    AdvanceRemaining(c, d, dt);
  }

  /** `0 <= a <= b` implies `a * a <= b * b`. */
  lemma SquareMono(a: real, b: real)
    requires 0.0 <= a <= b
    ensures a * a <= b * b
  {
    assert b * b - a * a == (b - a) * (b + a);
  }

  /** A well-formed rect moves at most `1500 * dt` in one step. */
  lemma StepDisplacement(r: Rect, sc: Screen, det: seq<Detection>, dt: real,
                         sqrt: real -> real, churn: Draws, arrival: Draws)
    requires IsSqrt(sqrt) && WellFormed(r) && DrawsInUnit(churn) && 0.0 <= dt
    ensures var s := Step(r, sc, det, dt, sqrt, churn, arrival);
            SqLen(s.x - r.x, s.y - r.y) <= (1500.0 * dt) * (1500.0 * dt)
  {
    var c := Churn(r, sc, det, churn);
    var d := sqrt(SqDist(c));
    if d < 10.0 {
      StepArrives(r, sc, det, dt, sqrt, churn, arrival);
    } else {
      assert WellFormed(c);
      assert d * d == SqDist(c) by {
        assert SqDist(c) >= 0.0;
      }
      StepAdvances(r, sc, det, dt, sqrt, churn, arrival);
      AdvanceDisplacement(c, d, dt);
    }
  }

  /** An advance at a speed below 1500 covers at most `1500 * dt`. */
  lemma AdvanceDisplacement(c: Rect, d: real, dt: real)
    requires d >= 10.0 && d * d == SqDist(c) && 0.0 <= c.speed < 1500.0 && 0.0 <= dt
    ensures var s := Advance(c, d, dt);
            SqLen(s.x - c.x, s.y - c.y) <= (1500.0 * dt) * (1500.0 * dt)
  {
    var step := Min(d, c.speed * dt);
    AdvanceStepBounds(c, d, dt);
    AdvanceLength(c, d, dt);
    assert c.speed * dt <= 1500.0 * dt;
    SquareMono(step, 1500.0 * dt);
  }

  // -------------------------------------------------------------- creation

  /** The methods class MovingRect declares. */
  const MovingRectMethods: set<string> :=
    {"randomize", "setTargetToObject", "setTargetToRandom", "move", "draw", "center"}

  /** How a JavaScript call ends: with a value or with a thrown error. */
  datatype Outcome<T> = Returned(value: T) | Threw(error: string)

  /**
   * `new MovingRect()` as written: `randomize` ends by calling
   * `this.setNewTarget()`. The call looks the method up among those the class
   * declares and, finding none, throws, so every construction fails and the
   * pool is never built.
   */
  function SpawnAsWritten(sc: Screen, d: SpawnDraws): (o: Outcome<Rect>)
    ensures o == Threw("TypeError: this.setNewTarget is not a function")
  {
    if "setNewTarget" in MovingRectMethods then Returned(Spawn(sc, d))
    else Threw("TypeError: this.setNewTarget is not a function")
  }

  /**
   * `new MovingRect()` without the call to the undeclared `setNewTarget`: a
   * random size and position, resting on its own corner as a random target.
   */
  function Spawn(sc: Screen, d: SpawnDraws): (r: Rect)
    ensures r.target == Point(r.x, r.y) && SqDist(r) == 0.0
    ensures r.targetType == Random && r.targetObjId == None
    ensures SpawnDrawsInUnit(d) ==> WellFormed(r)
    ensures InUnit(d.x) && r.width < sc.width ==> 0.0 <= r.x < sc.width - r.width
    ensures InUnit(d.y) && r.height < sc.height ==> 0.0 <= r.y < sc.height - r.height
  {
    var w, h := d.width * 80.0 + 40.0, d.height * 80.0 + 40.0;
    var x, y := Scaled(d.x, sc.width - w), Scaled(d.y, sc.height - h);
    Rect(x, y, w, h, Point(x, y), SpeedFrom(d.speed), Random, None)
  }

  // ------------------------------------------------------------ assignment

  /** What `assignRectsToObjects` does to rect `i`. */
  function AssignOne(r: Rect, i: nat, det: seq<Detection>, sc: Screen, d: Draws): (t: Rect)
    requires i < |det| ==> VideoReady(sc)
    ensures t.x == r.x && t.y == r.y && t.width == r.width && t.height == r.height
    ensures i < |det| ==> t.targetType == Object && t.targetObjId == Some(KeyOf(det[i]))
    ensures i >= |det| ==> t.targetType == Random
    ensures i >= |det| && r.targetType == Random ==> t == r
    ensures Bound(r) ==> Bound(t)
  {
    if i < |det| then TargetObject(r, sc, det[i], d.speed)
    else if r.targetType != Random then TargetRandom(r, sc, d)
    else r
  }

  /**
   * `assignRectsToObjects()`: rect i chases detection i where there is one;
   * every other rect chases a random point, and one that already did is left
   * untouched.
   */
  function Assign(rs: seq<Rect>, det: seq<Detection>, sc: Screen, draws: seq<Draws>): (ts: seq<Rect>)
    requires |draws| == |rs| && (|det| > 0 ==> VideoReady(sc))
    ensures |ts| == |rs|
    ensures forall i :: 0 <= i < |ts| ==>
              ts[i].x == rs[i].x && ts[i].y == rs[i].y && ts[i].width == rs[i].width && ts[i].height == rs[i].height
    ensures forall i :: 0 <= i < |ts| && i < |det| ==>
              && ts[i].targetType == Object && ts[i].targetObjId == Some(KeyOf(det[i]))
              && CenterOf(AtTarget(ts[i])) == ScaledBoxCenter(det[i].bbox, sc)
    ensures forall i :: |det| <= i < |ts| ==> ts[i].targetType == Random
    ensures forall i :: |det| <= i < |ts| && rs[i].targetType == Random ==> ts[i] == rs[i]
    ensures forall i :: 0 <= i < |ts| && Bound(rs[i]) ==> Bound(ts[i])
  {
    seq(|rs|, i requires 0 <= i < |rs| => AssignOne(rs[i], i, det, sc, draws[i]))
  }

  /** Assignment keeps every rect well formed. */
  lemma AssignKeepsWellFormed(rs: seq<Rect>, det: seq<Detection>, sc: Screen, draws: seq<Draws>)
    requires |draws| == |rs| && (|det| > 0 ==> VideoReady(sc))
    requires forall i :: 0 <= i < |rs| ==> WellFormed(rs[i]) && DrawsInUnit(draws[i])
    ensures forall i :: 0 <= i < |rs| ==> WellFormed(Assign(rs, det, sc, draws)[i])
  {
  }

  /**
   * Just after an assignment, every rect that chases an object chases one
   * that is in the detections.
   */
  lemma AssignBindsOnlyPresent(rs: seq<Rect>, det: seq<Detection>, sc: Screen, draws: seq<Draws>)
    requires |draws| == |rs| && (|det| > 0 ==> VideoReady(sc))
    ensures var ts := Assign(rs, det, sc, draws);
            forall i :: 0 <= i < |ts| && ts[i].targetType == Object ==> Present(det, ts[i].targetObjId)
  {
    var ts := Assign(rs, det, sc, draws);
    forall i | 0 <= i < |ts| && ts[i].targetType == Object
      ensures Present(det, ts[i].targetObjId)
    {
      assert i < |det|;
      assert Some(KeyOf(det[i])) == ts[i].targetObjId;
    }
  }

  /**
   * One-to-one: when the detections have distinct keys, no two rects chase
   * the same object.
   */
  lemma AssignOneToOne(rs: seq<Rect>, det: seq<Detection>, sc: Screen, draws: seq<Draws>)
    requires |draws| == |rs| && (|det| > 0 ==> VideoReady(sc))
    requires forall i, j :: 0 <= i < j < |det| ==> KeyOf(det[i]) != KeyOf(det[j])
    ensures var ts := Assign(rs, det, sc, draws);
            forall i, j :: 0 <= i < j < |ts| && ts[i].targetType == Object && ts[j].targetType == Object ==>
              ts[i].targetObjId != ts[j].targetObjId
  {
    var ts := Assign(rs, det, sc, draws);
    forall i, j | 0 <= i < j < |ts| && ts[i].targetType == Object && ts[j].targetType == Object
      ensures ts[i].targetObjId != ts[j].targetObjId
    {
      assert i < |det| && j < |det|;
    }
  }

  /**
   * Repeating an assignment with unchanged detections changes nothing but
   * the speeds of the rects bound to objects: bindings and targets are the
   * same whatever the second call draws.
   */
  lemma AssignIdempotent(rs: seq<Rect>, det: seq<Detection>, sc: Screen,
                         draws1: seq<Draws>, draws2: seq<Draws>)
    requires |draws1| == |rs| && |draws2| == |rs| && (|det| > 0 ==> VideoReady(sc))
    ensures var once := Assign(rs, det, sc, draws1);
            var twice := Assign(once, det, sc, draws2);
            forall i :: 0 <= i < |rs| ==>
              && twice[i] == once[i].(speed := twice[i].speed)
              && (i >= |det| ==> twice[i] == once[i])
  {
  }

  // ------------------------------------------------------------------ page

  const PoolSize: nat := 15

  /** The script's global state: screen sizes, `detectedObjects`, `rects` and `lastTime`. */
  datatype World = World(screen: Screen, detected: seq<Detection>, rects: seq<Rect>, lastTime: real)

  /** What holds of the page between any two events. */
  predicate WorldOk(w: World)
  {
    && |w.rects| == PoolSize
    && (forall i :: 0 <= i < |w.rects| ==> WellFormed(w.rects[i]))
    && (|w.detected| > 0 ==> VideoReady(w.screen))
  }

  /** Page load: fifteen fresh rects, no detections yet, the clock started at `now`. */
  function Start(sc: Screen, spawn: seq<SpawnDraws>, now: real): (w: World)
    requires |spawn| == PoolSize
    ensures (forall i :: 0 <= i < PoolSize ==> SpawnDrawsInUnit(spawn[i])) ==> WorldOk(w)
    ensures w.detected == [] && w.lastTime == now
  {
    World(sc, [], seq(PoolSize, i requires 0 <= i < PoolSize => Spawn(sc, spawn[i])), now)
  }

  /** A finished detection replaces `detectedObjects` wholesale. */
  function Detect(w: World, preds: seq<Detection>): (r: World)
    ensures r.detected == preds
    ensures r.screen == w.screen && r.rects == w.rects && r.lastTime == w.lastTime
  {
    w.(detected := preds)
  }

  /** The 200 ms assignment timer. */
  function Reassign(w: World, draws: seq<Draws>): (r: World)
    requires |draws| == |w.rects| && (|w.detected| > 0 ==> VideoReady(w.screen))
    ensures r.screen == w.screen && r.detected == w.detected && r.lastTime == w.lastTime
  {
    w.(rects := Assign(w.rects, w.detected, w.screen, draws))
  }

  /** One call of `animate(now)`: clamp the time step, then move every rect. */
  function Frame(w: World, now: real, sqrt: real -> real, moves: seq<MoveDraws>): (r: World)
    requires |moves| == |w.rects|
    ensures r.lastTime == now && |r.rects| == |w.rects|
    ensures r.screen == w.screen && r.detected == w.detected
    ensures forall i :: 0 <= i < |r.rects| && r.rects[i].targetType == Object ==>
              Present(r.detected, r.rects[i].targetObjId)
  {
    var dt := ClampDt(now, w.lastTime);
    w.(rects := seq(|w.rects|, i requires 0 <= i < |w.rects| =>
                      Step(w.rects[i], w.screen, w.detected, dt, sqrt, moves[i].churn, moves[i].arrival)),
       lastTime := now)
  }

  /** The bounded step per frame: with time running forward, no rect moves more than 75 units. */
  lemma FrameBoundedStep(w: World, now: real, sqrt: real -> real, moves: seq<MoveDraws>)
    requires IsSqrt(sqrt) && WorldOk(w) && |moves| == |w.rects| && w.lastTime <= now
    requires forall i :: 0 <= i < |moves| ==> MoveDrawsInUnit(moves[i])
    ensures var r := Frame(w, now, sqrt, moves);
            forall i :: 0 <= i < |r.rects| ==>
              SqLen(r.rects[i].x - w.rects[i].x, r.rects[i].y - w.rects[i].y) <= 75.0 * 75.0
  {
    var r := Frame(w, now, sqrt, moves);
    var dt := ClampDt(now, w.lastTime);
    forall i | 0 <= i < |r.rects|
      ensures SqLen(r.rects[i].x - w.rects[i].x, r.rects[i].y - w.rects[i].y) <= 75.0 * 75.0
    {
      assert r.rects[i] == Step(w.rects[i], w.screen, w.detected, dt, sqrt, moves[i].churn, moves[i].arrival);
      StepDisplacement(w.rects[i], w.screen, w.detected, dt, sqrt, moves[i].churn, moves[i].arrival);
      assert 0.0 <= dt <= 0.05;
      SquareMono(1500.0 * dt, 75.0);
      var moved := SqLen(r.rects[i].x - w.rects[i].x, r.rects[i].y - w.rects[i].y);
      var bound := (1500.0 * dt) * (1500.0 * dt);
      assert moved <= bound && bound <= 75.0 * 75.0;
    }
  }

  /** The three things that happen to the page: a detection, an assignment, a frame. */
  datatype Event =
    | Detected(preds: seq<Detection>)
    | Reassigned(draws: seq<Draws>)
    | Ticked(now: real, moves: seq<MoveDraws>)

  predicate EventOk(sc: Screen, e: Event)
  {
    match e
    case Detected(preds) => |preds| > 0 ==> VideoReady(sc)
    case Reassigned(draws) =>
      |draws| == PoolSize && forall i :: 0 <= i < |draws| ==> DrawsInUnit(draws[i])
    case Ticked(_, moves) =>
      |moves| == PoolSize && forall i :: 0 <= i < |moves| ==> MoveDrawsInUnit(moves[i])
  }

  function Apply(w: World, e: Event, sqrt: real -> real): World
    requires WorldOk(w) && EventOk(w.screen, e)
  {
    match e
    case Detected(preds) => Detect(w, preds)
    case Reassigned(draws) => Reassign(w, draws)
    case Ticked(now, moves) => Frame(w, now, sqrt, moves)
  }

  /** One event keeps the page's invariant. */
  lemma ApplyKeepsWorldOk(w: World, e: Event, sqrt: real -> real)
    requires WorldOk(w) && EventOk(w.screen, e)
    ensures WorldOk(Apply(w, e, sqrt)) && Apply(w, e, sqrt).screen == w.screen
  {
    match e
    case Detected(_) =>
    case Reassigned(draws) =>
      AssignKeepsWellFormed(w.rects, w.detected, w.screen, draws);
    case Ticked(now, moves) =>
      var r := Frame(w, now, sqrt, moves);
      forall i | 0 <= i < |r.rects| ensures WellFormed(r.rects[i]) {
        assert WellFormed(w.rects[i]) && MoveDrawsInUnit(moves[i]);
      }
  }

  /** Any interleaving of detections, assignments and frames. */
  function Run(w: World, events: seq<Event>, sqrt: real -> real): (r: World)
    requires WorldOk(w)
    requires forall i :: 0 <= i < |events| ==> EventOk(w.screen, events[i])
    ensures WorldOk(r) && r.screen == w.screen
    decreases |events|
  {
    if events == [] then w
    else
      ApplyKeepsWorldOk(w, events[0], sqrt);
      Run(Apply(w, events[0], sqrt), events[1..], sqrt)
  }

  // --------------------------------------------------------------- objects

  /** A rectangle of the pool, `class MovingRect`. */
  class MovingRect {
    var x: real
    var y: real
    var width: real
    var height: real
    var target: Point
    var speed: real
    var targetType: TargetType
    var targetObjId: Option<Key>

    function State(): Rect
      reads this
    {
      Rect(x, y, width, height, target, speed, targetType, targetObjId)
    }

    /** The constructor, with `randomize` as corrected (see Spawn). */
    constructor (sc: Screen, d: SpawnDraws)
      ensures State() == Spawn(sc, d)
    {
      new;
      Randomize(sc, d);
      target := Point(x, y);
      speed := SpeedFrom(d.speed);
      targetType := Random;
      targetObjId := None;
    }

    /** `randomize()`: a random size, then a random position at which the rect fits. */
    method Randomize(sc: Screen, d: SpawnDraws)
      modifies this
      ensures width == d.width * 80.0 + 40.0 && height == d.height * 80.0 + 40.0
      ensures x == Scaled(d.x, sc.width - width) && y == Scaled(d.y, sc.height - height)
      ensures target == old(target) && speed == old(speed)
      ensures targetType == old(targetType) && targetObjId == old(targetObjId)
    {
      width := d.width * 80.0 + 40.0;
      height := d.height * 80.0 + 40.0;
      x := Scaled(d.x, sc.width - width);
      y := Scaled(d.y, sc.height - height);
    }

    method SetTargetToObject(obj: Detection, sc: Screen, rs: real)
      requires VideoReady(sc)
      modifies this
      ensures State() == TargetObject(old(State()), sc, obj, rs)
    {
      var scaleX := sc.width / sc.videoWidth;
      var scaleY := sc.height / sc.videoHeight;
      target := Point((obj.bbox.left + obj.bbox.width / 2.0) * scaleX - width / 2.0,
                      (obj.bbox.top + obj.bbox.height / 2.0) * scaleY - height / 2.0);
      targetType := Object;
      targetObjId := Some(KeyOf(obj));
      speed := SpeedFrom(rs);
    }

    method SetTargetToRandom(sc: Screen, d: Draws)
      modifies this
      ensures State() == TargetRandom(old(State()), sc, d)
    {
      target := Point(Scaled(d.x, sc.width - width), Scaled(d.y, sc.height - height));
      targetType := Random;
      targetObjId := None;
      speed := SpeedFrom(d.speed);
    }

    method Move(dt: real, sc: Screen, det: seq<Detection>, sqrt: real -> real, churn: Draws, arrival: Draws)
      modifies this
      ensures State() == Step(old(State()), sc, det, dt, sqrt, churn, arrival)
    {
      if targetType == Object && !Present(det, targetObjId) {
        SetTargetToRandom(sc, churn);
      }
      ghost var c := State();
      assert c == Churn(old(State()), sc, det, churn);
      var dx := target.x - x;
      var dy := target.y - y;
      var dist := sqrt(SqLen(dx, dy));
      if dist < 10.0 {
        if targetType == Random {
          SetTargetToRandom(sc, arrival);
        }
        assert State() == Arrive(c, sc, arrival);
        return;
      }
      StepToward(dist, dt);
    }

    /** The last lines of `move`: a step of `min(dist, speed * dt)` along the unit vector to the target. */
    method StepToward(dist: real, dt: real)
      requires dist >= 10.0
      modifies this
      ensures State() == Advance(old(State()), dist, dt)
    {
      var dx := target.x - x;
      var dy := target.y - y;
      var moveDist := Min(dist, speed * dt);
      x := x + dx / dist * moveDist;
      y := y + dy / dist * moveDist;
    }

    function Center(): (c: Point)
      reads this
      ensures c == CenterOf(State())
    {
      Point(x + width / 2.0, y + height / 2.0)
    }
  }

  /** The page: canvas and video sizes, `detectedObjects`, `rects` and `lastTime`. */
  class Overlay {
    const screen: Screen
    const rects: array<MovingRect>
    var detectedObjects: seq<Detection>
    var lastTime: real

    ghost predicate Valid()
      reads this, rects
    {
      && rects.Length == PoolSize
      && (forall i, j :: 0 <= i < j < rects.Length ==> rects[i] != rects[j])
      && (|detectedObjects| > 0 ==> VideoReady(screen))
    }

    ghost function Rects(): set<MovingRect>
      reads this, rects
    {
      set i | 0 <= i < rects.Length :: rects[i]
    }

    ghost function Model(): World
      reads this, rects, Rects()
    {
      World(screen, detectedObjects,
            seq(rects.Length, i reads rects, set j | 0 <= j < rects.Length :: rects[j] requires 0 <= i < rects.Length => rects[i].State()),
            lastTime)
    }

    /** Page load: `Array.from({length: 15}, () => new MovingRect())` and `lastTime = now`. */
    constructor (sc: Screen, spawn: seq<SpawnDraws>, now: real)
      requires |spawn| == PoolSize
      ensures Valid() && fresh(rects) && fresh(Rects())
      ensures Model() == Start(sc, spawn, now)
    {
      var made: seq<MovingRect> := [];
      while |made| < PoolSize
        invariant |made| <= PoolSize
        invariant forall i, j :: 0 <= i < j < |made| ==> made[i] != made[j]
        invariant forall i :: 0 <= i < |made| ==> fresh(made[i]) && made[i].State() == Spawn(sc, spawn[i])
      {
        var r := new MovingRect(sc, spawn[|made|]);
        made := made + [r];
      }
      screen := sc;
      rects := new MovingRect[PoolSize](i requires 0 <= i < PoolSize => made[i]);
      detectedObjects := [];
      lastTime := now;
      new;
      assert forall i :: 0 <= i < PoolSize ==> rects[i] == made[i];
    }

    /** `detectedObjects = predictions`, at the end of a detection. */
    method ReceivePredictions(preds: seq<Detection>)
      requires Valid() && (|preds| > 0 ==> VideoReady(screen))
      modifies this
      ensures Valid()
      ensures Model() == Detect(old(Model()), preds)
    {
      detectedObjects := preds;
    }

    /** `assignRectsToObjects()` */
    method AssignRectsToObjects(draws: seq<Draws>)
      requires Valid() && |draws| == PoolSize
      modifies Rects()
      ensures Valid()
      ensures Model() == Reassign(old(Model()), draws)
    {
      for i := 0 to rects.Length
        invariant forall k :: 0 <= k < i ==>
                    rects[k].State() == AssignOne(old(rects[k].State()), k, detectedObjects, screen, draws[k])
        invariant forall k :: i <= k < rects.Length ==> rects[k].State() == old(rects[k].State())
      {
        if i < |detectedObjects| {
          rects[i].SetTargetToObject(detectedObjects[i], screen, draws[i].speed);
        } else if rects[i].targetType != Random {
          rects[i].SetTargetToRandom(screen, draws[i]);
        }
      }
    }

    /** `animate(now)`: the clamped time step, then `move(dt)` on every rect. */
    method Animate(now: real, sqrt: real -> real, moves: seq<MoveDraws>)
      requires Valid() && |moves| == PoolSize
      modifies this`lastTime, Rects()
      ensures Valid()
      ensures Model() == Frame(old(Model()), now, sqrt, moves)
    {
      ghost var w := Model();
      var dt := ClampDt(now, lastTime);
      lastTime := now;
      for i := 0 to rects.Length
        invariant lastTime == now
        invariant forall k :: 0 <= k < i ==>
                    rects[k].State() == Step(w.rects[k], screen, detectedObjects, dt, sqrt,
                                             moves[k].churn, moves[k].arrival)
        invariant forall k :: i <= k < rects.Length ==> rects[k].State() == w.rects[k]
      {
        rects[i].Move(dt, screen, detectedObjects, sqrt, moves[i].churn, moves[i].arrival);
      }
      ghost var next := Frame(w, now, sqrt, moves);
      assert forall k :: 0 <= k < rects.Length ==> Model().rects[k] == next.rects[k];
      assert Model().rects == next.rects;
    }
  }
}

=== FILE: uniform.dfy ===
/**
 * `Math.random()`: both scripts draw from [0, 1). The draws are passed in as
 * parameters, and their range is stated once here.
 */
module Uniform {
  /** A value `Math.random()` can return. */
  predicate InUnit(r: real) { 0.0 <= r < 1.0 }

  /** `Math.random() * extent`: a draw in [0, 1), scaled to [0, extent). */
  function Scaled(r: real, extent: real): (v: real)
    ensures InUnit(r) && extent > 0.0 ==> 0.0 <= v < extent
  {
    assert extent - r * extent == (1.0 - r) * extent;
    r * extent
  }
}

=== FILE: wrappers.dfy ===
/** Option, for the values the scripts leave `null` or `undefined`. */
module Wrappers {
  datatype Option<+T> = None | Some(value: T)
}
